=== FILE: README.md ===
# ERC-20 ledger of the `erc20` Substrate runtime module

A Dafny model of the token ledger in `substrate-erc20/runtime/src/erc20.rs`.
The runtime module declares seven storage items. `Name` and `Ticker` are left out, and the model keeps five:
- `Init`, a flag;
- `Owner` and `TotalSupply`, both fixed at genesis;
- `BalanceOf`, a map from account to `TokenBalance`;
- `Allowance`, a map from `(account, account)` to `TokenBalance`.

It exposes four dispatchable calls: `init`, `transfer`, `approve` and `transfer_from`. The last two share the private `_transfer`.

Files and modules:
- `ledger.dfy`, module `Erc20`: the storage as the immutable datatype `State`. `TokenBalance` is a subset type of `nat` bounded by `MAX`. Each call is a pure function from the storage before the call to an `Outcome`, which holds the storage after the call and the dispatch status. Deposited events are appended to `State.events`. This generation of Substrate does not roll back storage when a call returns an error. So on `Err` the outcome holds what had been written before the failing check. This matters only for `transfer_from`.
- `balances_sum.dfy`, module `BalancesSum`: the sum of all balances, and how one map write changes it.
- `ledger_properties.dfy`, module `Erc20Properties`: properties of the runtime's ledger as written. These cover conservation, frames, the reachable-storage invariant and the boundaries of these guarantees.
- `corrected.dfy`, module `Erc20Corrected`: the ledger with the three defects listed under Findings repaired. Here the invariant is proved for every sequence of calls.

The code is followed where it differs from the usual description of this ledger:
- The `Approval` event of `approve` carries the amount added, not the new allowance.
- `approve` adds to the existing allowance. It does not overwrite it.
- A failed `transfer_from` is not all-or-nothing.
- `transfer_from` never reads its origin.

## Model

| member | source | states |
|---|---|---|
| Erc20.Genesis | substrate-erc20/runtime/src/erc20.rs:16-59 | storage at genesis is inert: every call other than the owner's `init` fails and writes nothing, not even an event, while the owner's `init` succeeds |
| Erc20Properties.BalanceReadOverWrite | substrate-erc20/runtime/src/erc20.rs:70-70 | `balance_of` after an `insert` under `k` (lines 21, 97, 98) reads the written value at `k` and what it read before at every other account |
| Erc20Properties.AllowanceReadOverWrite | substrate-erc20/runtime/src/erc20.rs:71-71 | `allowance` after an `insert` under a pair (lines 40, 55) reads the written value for that pair and what it read before for every other pair, including the reversed pair |
| Erc20Properties.CheckedSubUndoesCheckedAdd | substrate-erc20/runtime/src/erc20.rs:93-95 | `checked_add(a, b)` yields `c` exactly when `checked_sub(c, b)` yields `a` (the same operations at lines 38 and 53) |
| Erc20Properties.MessageIdentifiesCheck | substrate-erc20/runtime/src/erc20.rs:18-95 | two errors carry the same message exactly when they are the same `Error`, or both come from the checked operations on allowances (lines 38, 53), or both from those on balances (lines 93, 95); `NoBalanceRecord` is the one `Error` for both `exists` checks on a balance record (lines 35, 87), which share their message |
| Erc20.Step | substrate-erc20/runtime/src/erc20.rs:12-61 | dispatch of one call to the matching function; no call changes owner or supply, clears `Init`, or removes events |
| Erc20.Run | substrate-erc20/runtime/src/erc20.rs:12-61 | a sequence of calls dispatched in order, failed calls keeping their writes; owner and supply stay fixed, `Init` stays set once set, events only grow |
| Erc20.Init | substrate-erc20/runtime/src/erc20.rs:16-25 | fails with "Already initialized." whoever sends it once `Init` is set; otherwise fails with "Only owner can initialize." unless the sender is the owner; on success gives the owner a record holding the total supply, sets `Init`, and changes nothing else |
| Erc20.InnerTransfer | substrate-erc20/runtime/src/erc20.rs:86-102 | fails with no change if `from` has no record or too little balance; its checked subtraction never fails; fails with no change exactly when the receiver's addition overflows; for distinct accounts debits `from` and credits `to` by exactly `value`, creating `to`'s record; for one account leaves old + value; no other balance, no allowance changes; appends `Transfer(from, to, value)` |
| Erc20.Transfer | substrate-erc20/runtime/src/erc20.rs:27-30 | is `_transfer` from the signed sender: fails with no change unless the sender has a record holding at least `value` and the receiver's balance stays within MAX; between distinct accounts debits the sender and credits `to` by exactly `value`, creating `to`'s record; to itself leaves old + value; no other balance, no allowance, no configuration changes; appends `Transfer(sender, to, value)` |
| Erc20.Approve | substrate-erc20/runtime/src/erc20.rs:32-44 | fails with no change unless the sender has a balance record (zero counts); raises the allowance (sender, spender) by `value`, failing with no change on overflow; no balance and no other allowance changes; the event carries the delta `value` |
| Erc20.TransferFrom | substrate-erc20/runtime/src/erc20.rs:46-59 | fails with no change unless the allowance keyed (from, to) exists and covers `value`; its checked subtraction never fails; once the guard passes the allowance is lowered by exactly `value` and `Approval(from, to, value)` appended whatever happens next; status and balances are then those `_transfer` gives on the original storage |
| Erc20Properties.InitOnlyOnce | substrate-erc20/runtime/src/erc20.rs:18-22 | after a successful `init` a second `init` by anyone fails with "Already initialized." and changes nothing |
| Erc20Properties.TransferConserves | substrate-erc20/runtime/src/erc20.rs:89-98 | a transfer between distinct accounts keeps the sum of all balances |
| Erc20Properties.SelfTransferMints | substrate-erc20/runtime/src/erc20.rs:89-98 | a self-transfer succeeds exactly when old >= value and old + value <= MAX, and then adds `value` to the sum of balances |
| Erc20Properties.NoOverflowWithinSupply | substrate-erc20/runtime/src/erc20.rs:94-95 | while balances sum to at most MAX, the receiver's addition between distinct accounts cannot overflow |
| Erc20Properties.ReachableTransfersNeverOverflow | substrate-erc20/runtime/src/erc20.rs:94-95 | in any storage reached from genesis without self-transfers, that addition cannot overflow |
| Erc20Properties.ApproveAccumulates | substrate-erc20/runtime/src/erc20.rs:37-42 | approving x then y raises the allowance by x + y, leaves balances alone and deposits events carrying x and y |
| Erc20Properties.ZeroRecordIsNotAbsence | substrate-erc20/runtime/src/erc20.rs:35-35 | a zero record and no record read alike through `balance_of`, yet only the former lets its account approve |
| Erc20Properties.TransferFromWritesBeforeChecking | substrate-erc20/runtime/src/erc20.rs:53-58 | when the allowance guard passes but `from` lacks balance, the call fails yet the allowance is spent and the `Approval` event kept |
| Erc20Properties.TransferFromIgnoresOrigin | substrate-erc20/runtime/src/erc20.rs:46-59 | the origin of `transfer_from` does not affect its outcome |
| Erc20Properties.GenesisValid | substrate-erc20/runtime/src/erc20.rs:63-71 | genesis storage (no `Init`, no records) satisfies the invariant |
| Erc20Properties.StepFrame | substrate-erc20/runtime/src/erc20.rs:16-59 | no call changes owner or total supply; `Init` only goes false to true and only by the owner's `init`; events are only appended |
| Erc20Properties.StepPreservesValid | substrate-erc20/runtime/src/erc20.rs:16-59 | every call except a self-transfer keeps: no records before `init`, balances summing to the supply after |
| Erc20Properties.RunPreservesValid | substrate-erc20/runtime/src/erc20.rs:16-59 | the invariant holds after any self-transfer-free sequence of calls |
| Erc20Properties.AllowanceKeyedByReceiver | substrate-erc20/runtime/src/erc20.rs:46-51 | supply 1000: init, transfer 300 to B, B approves C for 100; `transfer_from(B, D, 60)` fails for lack of a (B, D) allowance |
| Erc20Properties.SelfTransferBreaksConservation | substrate-erc20/runtime/src/erc20.rs:94-98 | init with supply 100 then a self-transfer of 100 leaves the owner holding 200, breaking conservation |
| Erc20Properties.FailedTransferFromSpendsAllowance | substrate-erc20/runtime/src/erc20.rs:55-58 | balance 100, allowance 500: `transfer_from` of 200 fails with "Not enough balance." yet leaves allowance 300 |
| Erc20Corrected.SafeInnerTransfer | substrate-erc20/runtime/src/erc20.rs:86-102 | `_transfer` reading the receiver after the debit: a self-transfer leaves storage unchanged but for the event; agrees with the runtime for distinct accounts; failure changes nothing |
| Erc20Corrected.SafeTransferFrom | substrate-erc20/runtime/src/erc20.rs:46-59 | spends the allowance (from, origin); succeeds exactly when it covers `value` and the transfer succeeds; on success lowers that allowance by exactly `value` and no other, moves balances as the corrected transfer does, appends `Approval` then `Transfer`, and changes no other field (`Init`, owner, supply); failure changes nothing |
| Erc20Corrected.SafeInnerTransferConserves | substrate-erc20/runtime/src/erc20.rs:89-98 | the corrected transfer keeps the sum of balances for all accounts, self included |
| Erc20Corrected.SafeStepAtomic | substrate-erc20/runtime/src/erc20.rs:16-59 | every corrected call that fails leaves storage and events unchanged |
| Erc20Corrected.SafeTransferFromNeedsSpenderAllowance | substrate-erc20/runtime/src/erc20.rs:46-55 | a corrected `transfer_from` succeeds only within the allowance granted to its origin |
| Erc20Corrected.SafeStepPreservesValid | substrate-erc20/runtime/src/erc20.rs:16-59 | every corrected call keeps the invariant |
| Erc20Corrected.SafeRunPreservesValid | substrate-erc20/runtime/src/erc20.rs:16-59 | the invariant, conservation included, holds after every sequence of corrected calls |
| Erc20Corrected.SafeSelfTransferOnDefectInput | substrate-erc20/runtime/src/erc20.rs:94-98 | on the self-transfer input, the corrected ledger keeps the owner at 100 and the balances summing to the supply |
| Erc20Corrected.SafeFailedTransferFromOnDefectInput | substrate-erc20/runtime/src/erc20.rs:55-58 | on the write-before-check input, the corrected `transfer_from` fails and the allowance stays at 500 |
| Erc20Corrected.SafeSpenderSendsOnDefectInput | substrate-erc20/runtime/src/erc20.rs:46-55 | on the allowance-keying input, spender 3 approved by account 2 sends 60 of 2's tokens to account 4, leaving 240, 60 and an allowance of 40 |

## Left out

- Origins and `ensure_signed` (lines 17, 28, 33): the sender is an authenticated `Account` parameter, and an unsigned origin is not modelled. `transfer_from` takes no sender, because it never reads one.
- The `decl_module!`, `decl_storage!` and `decl_event!` macros, codec and trait bounds. Genesis `config()` loading is replaced by `Genesis(owner, totalSupply)`.
- `Name` and `Ticker` (lines 68-69): inert byte strings with no behaviour.
- `deposit_event` as a host channel: events are an appended sequence in `State`.
- The runtime's binding of `TokenBalance` is not part of this model. `MAX` assumes `u128`. The general lemmas hold for any value of `MAX`; the example lemmas with concrete amounts (supplies of 100 and 1000, an allowance of 500) need `MAX >= 1000`.
- `AccountId` is modelled as `nat`. Only equality of accounts is used.
- Read accessors other than `balance_of` and `allowance` (`is_init`, `owner`, `total_supply`) are plain field reads of `State`.
- Host-side transaction handling and call scheduling are not modelled. Calls run one at a time in the order given, with no rollback.

## Findings

| source | as written | input that shows it | evidently intended | confidence | as-written member | corrected member |
|---|---|---|---|---|---|---|
| substrate-erc20/runtime/src/erc20.rs:94-98 | the receiver's balance is read before the sender's write, and the receiver's write overwrites the sender's | owner 1 holds the supply 100 and calls `transfer(1, 100)` on itself, ending with 200 | a self-transfer leaves the balance unchanged and the supply conserved | high, not executed | Erc20Properties.SelfTransferBreaksConservation | Erc20Corrected.SafeInnerTransfer |
| substrate-erc20/runtime/src/erc20.rs:55-58 | the allowance is written and `Approval` deposited before `_transfer` checks the balance; storage is not rolled back on error | balance 100 and allowance (1, 2) of 500; `transfer_from(1, 2, 200)` fails but leaves the allowance at 300 | a failed call changes nothing | medium (depends on the host not reverting storage), not executed | Erc20Properties.FailedTransferFromSpendsAllowance | Erc20Corrected.SafeTransferFrom |
| substrate-erc20/runtime/src/erc20.rs:46-55 | the allowance consulted is keyed (from, to), and the origin is never read | B approves C for 100, then C calls `transfer_from(B, D, 60)`; it fails with "Allowance does not exists." | the allowance of (from, origin) is spent, so the approved spender may send anywhere | medium, not executed | Erc20Properties.AllowanceKeyedByReceiver | Erc20Corrected.SafeTransferFrom |

=== FILE: balances_sum.dfy ===
/** The sum of the balances held in a storage map, and how a single write
    changes it. */
module BalancesSum {
  import opened Erc20

  /** Sum of all values of `m`. */
  ghost function Sum<K>(m: map<K, TokenBalance>): nat
    decreases |m|
  {
    if m == map[] then 0
    else
      var k :| k in m;
      m[k] + Sum(m - {k})
  }

  /** Taking out any one record removes exactly its value from the sum,
      whichever key `Sum` happens to pick first. */
  lemma {:induction false} SumRemove<K>(m: map<K, TokenBalance>, k: K)
    requires k in m
    ensures Sum(m) == m[k] + Sum(m - {k})
    decreases |m|
  {
    var j :| j in m && Sum(m) == m[j] + Sum(m - {j});
    if j != k {
      assert m - {j} - {k} == m - {k} - {j};
      SumRemove(m - {j}, k);
      SumRemove(m - {k}, j);
    }
  }

  /** Writing `v` under `k` replaces the old value (or zero) in the sum by `v`. */
  lemma SumUpdate<K>(m: map<K, TokenBalance>, k: K, v: TokenBalance)
    ensures Sum(m[k := v]) + ValueOr0(m, k) == Sum(m) + v
  {
    SumRemove(m[k := v], k);
    assert m[k := v] - {k} == m - {k};
    if k in m {
      SumRemove(m, k);
    } else {
      assert m - {k} == m;
    }
  }

  /** Any two distinct records together are at most the sum. */
  lemma SumBoundsPair<K>(m: map<K, TokenBalance>, a: K, b: K)
    requires a != b
    ensures ValueOr0(m, a) + ValueOr0(m, b) <= Sum(m)
  {
    if a in m {
      SumRemove(m, a);
      if b in m {
        SumRemove(m - {a}, b);
      }
    } else if b in m {
      SumRemove(m, b);
    }
  }
}

=== FILE: corrected.dfy ===
/** The ledger as its storage invariant evidently intends it, differing from
    the runtime in three places:
    - `_transfer` reads the receiver's balance after debiting the sender, so
      a transfer of an account to itself leaves its balance unchanged;
    - `transfer_from` spends the allowance its origin was granted, keyed by
      `(from, origin)`, instead of the one keyed by `(from, to)`;
    - `transfer_from` leaves storage untouched when `_transfer` fails.
    `init` and `approve` are the runtime's own. Against this ledger the
    invariant holds after every sequence of calls, self-transfers included. */
module Erc20Corrected {
  import opened Erc20
  import opened BalancesSum
  import Erc20Properties

  /** `_transfer` with the receiver's balance read after the sender's write. */
  function SafeInnerTransfer(s: State, from: Account, to: Account, value: TokenBalance): (o: Outcome)
    ensures o.status.Err? ==> o.state == s
    ensures o.status.Ok? <==>
              && from in s.balances
              && value <= s.balances[from]
              && (from == to || BalanceOf(s, to) + value <= MAX)
    ensures o.status.Ok? && from == to ==>
              o.state == s.(events := s.events + [TransferEvent(from, to, value)])
    ensures from != to ==> o == InnerTransfer(s, from, to, value)
  {
    if from !in s.balances then Fail(s, NoBalanceRecord)
    else
      var senderBalance := s.balances[from];
      if senderBalance < value then Fail(s, InsufficientBalance)
      else
        var debited := s.balances[from := senderBalance - value];
        match CheckedAdd(ValueOr0(debited, to), value)
        case None => Fail(s, BalanceOverflow)
        case Some(updatedTo) =>
          Outcome(s.(balances := debited[to := updatedTo],
                     events := s.events + [TransferEvent(from, to, value)]), Ok)
  }

  /** `transfer_from` that spends the allowance `(from, spender)` of the
      signed origin, and commits nothing unless the transfer succeeds. */
  function SafeTransferFrom(s: State, spender: Account, from: Account, to: Account, value: TokenBalance): (o: Outcome)
    ensures o.status.Err? ==> o.state == s
    ensures o.status.Ok? <==>
              && (from, spender) in s.allowances
              && value <= s.allowances[(from, spender)]
              && SafeInnerTransfer(s, from, to, value).status.Ok?
    ensures o.status.Ok? ==>
              && (from, spender) in o.state.allowances
              && o.state.allowances[(from, spender)] == s.allowances[(from, spender)] - value
              && Agree(s.allowances, o.state.allowances, {(from, spender)})
              && o.state.balances == SafeInnerTransfer(s, from, to, value).state.balances
              && o.state.events == s.events + [ApprovalEvent(from, spender, value), TransferEvent(from, to, value)]
              && o.state == s.(allowances := o.state.allowances, balances := o.state.balances, events := o.state.events)
  {
    if (from, spender) !in s.allowances then Fail(s, NoAllowanceRecord)
    else
      var allowance := s.allowances[(from, spender)];
      if allowance < value then Fail(s, InsufficientAllowance)
      else
        var s1 := s.(allowances := s.allowances[(from, spender) := allowance - value],
                     events := s.events + [ApprovalEvent(from, spender, value)]);
        var o := SafeInnerTransfer(s1, from, to, value);
        if o.status.Ok? then o else Fail(s, o.status.error)
  }

  /** Dispatch one call against the corrected ledger; the origin of
      `transfer_from` is the spender. */
  function SafeStep(s: State, c: Call): Outcome {
    match c
    case InitCall(sender) => Init(s, sender)
    case TransferCall(sender, to, value) => SafeInnerTransfer(s, sender, to, value)
    case ApproveCall(sender, spender, value) => Approve(s, sender, spender, value)
    case TransferFromCall(origin, from, to, value) => SafeTransferFrom(s, origin, from, to, value)
  }

  function SafeRun(s: State, calls: seq<Call>): State
    decreases |calls|
  {
    if |calls| == 0 then s else SafeRun(SafeStep(s, calls[0]).state, calls[1..])
  }

  /** Every corrected transfer conserves the sum of balances, self-transfers
      included. */
  lemma SafeInnerTransferConserves(s: State, from: Account, to: Account, value: TokenBalance)
    ensures Sum(SafeInnerTransfer(s, from, to, value).state.balances) == Sum(s.balances)
  {
    if from != to {
      Erc20Properties.TransferConserves(s, from, to, value);
    }
  }

  /** Every corrected call is all-or-nothing: a failure leaves storage and
      the event log as they were. */
  lemma SafeStepAtomic(s: State, c: Call)
    ensures SafeStep(s, c).status.Err? ==> SafeStep(s, c).state == s
  {
  }

  /** Only the spender the owner approved can move the owner's tokens, and at
      most what was approved. */
  lemma SafeTransferFromNeedsSpenderAllowance(s: State, spender: Account, from: Account, to: Account, value: TokenBalance)
    ensures SafeStep(s, TransferFromCall(spender, from, to, value)).status.Ok? ==>
              value <= AllowanceOf(s, from, spender)
  {
  }

  /** Every corrected call keeps the storage invariant. */
  lemma SafeStepPreservesValid(s: State, c: Call)
    requires Erc20Properties.Valid(s)
    ensures Erc20Properties.Valid(SafeStep(s, c).state)
  {
    match c
    case InitCall(sender) =>
      Erc20Properties.StepPreservesValid(s, c);
    case TransferCall(sender, to, value) =>
      SafeInnerTransferConserves(s, sender, to, value);
    case ApproveCall(sender, spender, value) =>
    case TransferFromCall(origin, from, to, value) =>
      SafeInnerTransferConserves(s, from, to, value);
  }

  /** The invariant, conservation of the total supply included, holds after
      every sequence of calls against the corrected ledger. */
  lemma {:induction false} SafeRunPreservesValid(s: State, calls: seq<Call>)
    requires Erc20Properties.Valid(s)
    ensures Erc20Properties.Valid(SafeRun(s, calls))
    decreases |calls|
  {
    if |calls| > 0 {
      SafeStepPreservesValid(s, calls[0]);
      SafeRunPreservesValid(SafeStep(s, calls[0]).state, calls[1..]);
    }
  }

  /** On the input of the self-transfer finding, the corrected ledger keeps
      the owner at 100 and the balances summing to the supply. */
  lemma SafeSelfTransferOnDefectInput()
    ensures var s := SafeRun(Genesis(1, 100), [InitCall(1), TransferCall(1, 1, 100)]);
            && s.balances == map[1 := 100]
            && Erc20Properties.Valid(s)
  {
  }

  /** On the input of the write-before-check finding, the corrected
      `transfer_from` fails and keeps the allowance at 500. */
  lemma SafeFailedTransferFromOnDefectInput()
    ensures var s := SafeRun(Genesis(1, 100), [InitCall(1), ApproveCall(1, 2, 500)]);
            && AllowanceOf(s, 1, 2) == 500
            && SafeTransferFrom(s, 2, 1, 2, 200) == Fail(s, InsufficientBalance)
  {
  }

  /** On the input of the allowance-keying finding, the spender 3 approved by
      account 2 can send 60 of 2's tokens to account 4, and what remains of
      its allowance is 40. */
  lemma SafeSpenderSendsOnDefectInput()
    ensures var s := SafeRun(Genesis(1, 1000), [InitCall(1), TransferCall(1, 2, 300), ApproveCall(2, 3, 100)]);
            var o := SafeTransferFrom(s, 3, 2, 4, 60);
            && o.status.Ok?
            && BalanceOf(o.state, 2) == 240 && BalanceOf(o.state, 4) == 60
            && AllowanceOf(o.state, 2, 3) == 40
  {
  }
}

=== FILE: ledger.dfy ===
/** The ERC-20 style token ledger of the Substrate runtime module `erc20`,
    modelled as a pure state machine.

    The runtime keeps seven storage items, of which this model keeps five
    (`Init`, `Owner`, `TotalSupply`, `BalanceOf`, `Allowance`; the inert
    `Name` and `Ticker` are left out), and exposes four dispatchable calls (`init`,
    `transfer`, `approve`, `transfer_from`); the last two share the private
    `_transfer`. Each call here takes the storage before the call and returns
    an `Outcome`: the storage after the call together with the dispatch
    status. Storage writes made before an error are NOT rolled back, exactly
    as in the runtime, so on `Err` the returned state is whatever had been
    written when the error was raised.
 */
module Erc20 {

  /** Largest value of `TokenBalance`, taken as `u128`. */
  const MAX: nat := 0xFFFF_FFFF_FFFF_FFFF_FFFF_FFFF_FFFF_FFFF

  /** The bounded unsigned integer the runtime stores balances and allowances in. */
  type TokenBalance = b: nat | b <= MAX

  /** An account identity; the ledger only ever compares identities for equality. */
  type Account = nat

  datatype Option<+T> = None | Some(value: T)

  datatype Event =
    | TransferEvent(from: Account, to: Account, value: TokenBalance)
    | ApprovalEvent(owner: Account, spender: Account, value: TokenBalance)

  /** The ways a call of the runtime fails; `Message` is the string the
      runtime returns. `NoBalanceRecord` stands for both `exists` checks on a
      balance record, `approve`'s on the sender and `_transfer`'s on `from`,
      which return the same message; every other check has a constructor of
      its own. The checked operations on allowances (`approve`'s addition,
      `transfer_from`'s subtraction) share one message, and the two checked
      operations on balances in `_transfer` share another. */
  datatype Error =
    | AlreadyInitialized
    | NotOwner
    | NoBalanceRecord
    | NoAllowanceRecord
    | InsufficientAllowance
    | InsufficientBalance
    | AllowanceOverflow
    | AllowanceUnderflow
    | BalanceUnderflow
    | BalanceOverflow
  {
    function Message(): string {
      match this
      case AlreadyInitialized => "Already initialized."
      case NotOwner => "Only owner can initialize."
      case NoBalanceRecord => "Account does not own this token"
      case NoAllowanceRecord => "Allowance does not exists."
      case InsufficientAllowance => "Not enough allowance."
      case InsufficientBalance => "Not enough balance."
      case AllowanceOverflow => "overflow in calculating allowance"
      case AllowanceUnderflow => "overflow in calculating allowance"
      case BalanceUnderflow => "overflow in calculating balance"
      case BalanceOverflow => "overflow in calculating balance"
    }
  }

  /** The dispatch result `Result<(), &'static str>`. */
  datatype Status = Ok | Err(error: Error)

  /** The module's storage plus the events it has deposited so far.
      A key absent from `balances` or `allowances` means "no record", which
      the `exists` checks tell apart from a record holding zero. */
  datatype State = State(
    init: bool,
    owner: Account,
    totalSupply: TokenBalance,
    balances: map<Account, TokenBalance>,
    allowances: map<(Account, Account), TokenBalance>,
    events: seq<Event>)

  /** Storage after a call, and what the call returned. */
  datatype Outcome = Outcome(state: State, status: Status)

  /** Storage as configured at genesis: only `Owner` and `TotalSupply` are
      set. Until the owner's `init`, every call fails and writes nothing. */
  function Genesis(owner: Account, totalSupply: TokenBalance): (s: State)
    ensures !s.init && s.owner == owner && s.totalSupply == totalSupply
    ensures s.balances == map[] && s.allowances == map[] && s.events == []
    ensures forall c :: c != InitCall(owner) ==> Step(s, c).status.Err? && Step(s, c).state == s
    ensures Step(s, InitCall(owner)).status.Ok?
  {
    State(false, owner, totalSupply, map[], map[], [])
  }

  /** The value stored under `k`, or zero when `m` holds no record for `k`:
      how every storage map of the module reads. */
  function ValueOr0<K>(m: map<K, TokenBalance>, k: K): TokenBalance {
    if k in m then m[k] else 0
  }

  /** The `balance_of` getter: an absent record reads as zero, a present one
      as its value. */
  function BalanceOf(s: State, who: Account): (b: TokenBalance)
    ensures who !in s.balances ==> b == 0
    ensures who in s.balances ==> b == s.balances[who]
  {
    ValueOr0(s.balances, who)
  }

  /** The `allowance` getter: an absent record reads as zero, a present one
      as its value. */
  function AllowanceOf(s: State, owner: Account, spender: Account): (a: TokenBalance)
    ensures (owner, spender) !in s.allowances ==> a == 0
    ensures (owner, spender) in s.allowances ==> a == s.allowances[(owner, spender)]
  {
    ValueOr0(s.allowances, (owner, spender))
  }

  /** `checked_add` on `TokenBalance`. */
  function CheckedAdd(a: TokenBalance, b: TokenBalance): (r: Option<TokenBalance>)
    ensures r.Some? <==> a + b <= MAX
    ensures r.Some? ==> r.value == a + b
  {
    if a + b <= MAX then Some(a + b) else None
  }

  /** `checked_sub` on `TokenBalance`. */
  function CheckedSub(a: TokenBalance, b: TokenBalance): (r: Option<TokenBalance>)
    ensures r.Some? <==> b <= a
    ensures r.Some? ==> r.value + b == a
  {
    if b <= a then Some(a - b) else None
  }

  /** `m` and `m'` hold the same records, with the same values, outside `except`. */
  ghost predicate Agree<K(!new)>(m: map<K, TokenBalance>, m': map<K, TokenBalance>, except: set<K>) {
    forall k :: k !in except ==> (k in m <==> k in m') && (k in m ==> m[k] == m'[k])
  }

  /** The call failed before writing anything. */
  function Fail(s: State, e: Error): Outcome {
    Outcome(s, Err(e))
  }

  /** `init`: the owner credits itself the whole supply, once. */
  function Init(s: State, sender: Account): (o: Outcome)
    ensures s.init ==> o == Fail(s, AlreadyInitialized)
    ensures !s.init && sender != s.owner ==> o == Fail(s, NotOwner)
    ensures o.status.Ok? <==> !s.init && sender == s.owner
    ensures o.status.Ok? ==>
              && o.state.init
              && s.owner in o.state.balances
              && o.state.balances[s.owner] == s.totalSupply
              && o.state.balances.Keys == s.balances.Keys + {s.owner}
              && Agree(s.balances, o.state.balances, {s.owner})
              && o.state == s.(init := true, balances := o.state.balances)
  {
    if s.init then Fail(s, AlreadyInitialized)
    else if s.owner != sender then Fail(s, NotOwner)
    else
      Outcome(s.(balances := s.balances[sender := s.totalSupply], init := true), Ok)
  }

  /** The private `_transfer`. Both new balances are computed from the storage
      as it was on entry, then written sender first, receiver second: when
      `from == to` the second write wins and the account ends with its old
      balance plus `value`. */
  function InnerTransfer(s: State, from: Account, to: Account, value: TokenBalance): (o: Outcome)
    ensures from !in s.balances ==> o == Fail(s, NoBalanceRecord)
    ensures from in s.balances && s.balances[from] < value ==> o == Fail(s, InsufficientBalance)
    ensures o.status != Err(BalanceUnderflow)
    ensures o.status.Err? ==> o.state == s
    ensures o.status.Ok? <==>
              && from in s.balances
              && value <= s.balances[from]
              && BalanceOf(s, to) + value <= MAX
    ensures from in s.balances && value <= s.balances[from] && BalanceOf(s, to) + value > MAX ==>
              o == Fail(s, BalanceOverflow)
    ensures o.status.Ok? && from != to ==>
              && from in o.state.balances
              && o.state.balances[from] == s.balances[from] - value
              && to in o.state.balances
              && o.state.balances[to] == BalanceOf(s, to) + value
    ensures o.status.Ok? && from == to ==>
              from in o.state.balances && o.state.balances[from] == s.balances[from] + value
    ensures o.status.Ok? ==>
              && o.state.balances.Keys == s.balances.Keys + {to}
              && Agree(s.balances, o.state.balances, {from, to})
              && o.state == s.(balances := o.state.balances, events := s.events + [TransferEvent(from, to, value)])
  {
    if from !in s.balances then Fail(s, NoBalanceRecord)
    else
      var senderBalance := BalanceOf(s, from);
      if senderBalance < value then Fail(s, InsufficientBalance)
      else
        match CheckedSub(senderBalance, value)
        case None => Fail(s, BalanceUnderflow)
        case Some(updatedFrom) =>
          var receiverBalance := BalanceOf(s, to);
          match CheckedAdd(receiverBalance, value)
          case None => Fail(s, BalanceOverflow)
          case Some(updatedTo) =>
            var balances := s.balances[from := updatedFrom][to := updatedTo];
            Outcome(s.(balances := balances, events := s.events + [TransferEvent(from, to, value)]), Ok)
  }

  /** `transfer`: the signed sender moves `value` of its own tokens to `to`. */
  function Transfer(s: State, sender: Account, to: Account, value: TokenBalance): (o: Outcome)
    ensures o.status.Err? ==> o.state == s
    ensures o.status.Ok? <==>
              sender in s.balances && value <= s.balances[sender] && BalanceOf(s, to) + value <= MAX
    ensures o.status.Ok? && sender != to ==>
              && sender in o.state.balances
              && o.state.balances[sender] == s.balances[sender] - value
              && to in o.state.balances
              && o.state.balances[to] == BalanceOf(s, to) + value
    ensures o.status.Ok? && sender == to ==>
              sender in o.state.balances && o.state.balances[sender] == s.balances[sender] + value
    ensures o.status.Ok? ==>
              && o.state.balances.Keys == s.balances.Keys + {to}
              && Agree(s.balances, o.state.balances, {sender, to})
              && o.state == s.(balances := o.state.balances,
                               events := s.events + [TransferEvent(sender, to, value)])
  {
    InnerTransfer(s, sender, to, value)
  }

  /** `approve`: adds `value` to the allowance `(sender, spender)`; the event
      carries the amount added, not the new allowance. */
  function Approve(s: State, sender: Account, spender: Account, value: TokenBalance): (o: Outcome)
    ensures sender !in s.balances ==> o == Fail(s, NoBalanceRecord)
    ensures sender in s.balances && AllowanceOf(s, sender, spender) + value > MAX ==>
              o == Fail(s, AllowanceOverflow)
    ensures o.status.Err? ==> o.state == s
    ensures o.status.Ok? <==> sender in s.balances && AllowanceOf(s, sender, spender) + value <= MAX
    ensures o.status.Ok? ==>
              && (sender, spender) in o.state.allowances
              && o.state.allowances[(sender, spender)] == AllowanceOf(s, sender, spender) + value
              && Agree(s.allowances, o.state.allowances, {(sender, spender)})
              && o.state == s.(allowances := o.state.allowances,
                               events := s.events + [ApprovalEvent(sender, spender, value)])
  {
    if sender !in s.balances then Fail(s, NoBalanceRecord)
    else
      var allowance := AllowanceOf(s, sender, spender);
      match CheckedAdd(allowance, value)
      case None => Fail(s, AllowanceOverflow)
      case Some(updated) =>
        var allowances := s.allowances[(sender, spender) := updated];
        Outcome(s.(allowances := allowances, events := s.events + [ApprovalEvent(sender, spender, value)]), Ok)
  }

  /** `transfer_from`: spends the allowance keyed by `(from, to)` and then
      runs `_transfer`. The origin of the call is never read, so it is not a
      parameter. The allowance write and the `Approval` event happen before
      `_transfer` runs its checks, and stay when those checks fail. */
  function TransferFrom(s: State, from: Account, to: Account, value: TokenBalance): (o: Outcome)
    ensures (from, to) !in s.allowances ==> o == Fail(s, NoAllowanceRecord)
    ensures (from, to) in s.allowances && s.allowances[(from, to)] < value ==>
              o == Fail(s, InsufficientAllowance)
    ensures o.status != Err(AllowanceUnderflow)
    ensures o.status.Ok? ==> (from, to) in s.allowances && value <= s.allowances[(from, to)]
    ensures (from, to) in s.allowances && value <= s.allowances[(from, to)] ==>
              && (from, to) in o.state.allowances
              && o.state.allowances[(from, to)] == s.allowances[(from, to)] - value
              && Agree(s.allowances, o.state.allowances, {(from, to)})
              && o.status == InnerTransfer(s, from, to, value).status
              && o.state.balances == InnerTransfer(s, from, to, value).state.balances
              && o.state.init == s.init && o.state.owner == s.owner
              && o.state.totalSupply == s.totalSupply
              && o.state.events == s.events + [ApprovalEvent(from, to, value)]
                   + (if o.status.Ok? then [TransferEvent(from, to, value)] else [])
  {
    if (from, to) !in s.allowances then Fail(s, NoAllowanceRecord)
    else
      var allowance := AllowanceOf(s, from, to);
      if allowance < value then Fail(s, InsufficientAllowance)
      else
        match CheckedSub(allowance, value)
        case None => Fail(s, AllowanceUnderflow)
        case Some(updated) =>
          var s1 := s.(allowances := s.allowances[(from, to) := updated],
                       events := s.events + [ApprovalEvent(from, to, value)]);
          InnerTransfer(s1, from, to, value)
  }

  /** A dispatchable call with its signed origin. `transfer_from` takes an
      origin too, which the runtime ignores. */
  datatype Call =
    | InitCall(sender: Account)
    | TransferCall(sender: Account, to: Account, value: TokenBalance)
    | ApproveCall(sender: Account, spender: Account, value: TokenBalance)
    | TransferFromCall(origin: Account, from: Account, to: Account, value: TokenBalance)

  /** Dispatch one call against the storage. */
  function Step(s: State, c: Call): (o: Outcome)
    ensures o.state.owner == s.owner && o.state.totalSupply == s.totalSupply
    ensures s.init ==> o.state.init
    ensures s.events <= o.state.events
  {
    match c
    case InitCall(sender) => Init(s, sender)
    case TransferCall(sender, to, value) => Transfer(s, sender, to, value)
    case ApproveCall(sender, spender, value) => Approve(s, sender, spender, value)
    case TransferFromCall(_, from, to, value) => TransferFrom(s, from, to, value)
  }

  /** The storage after dispatching `calls` in order; failed calls keep
      whatever they wrote. */
  function Run(s: State, calls: seq<Call>): (t: State)
    ensures t.owner == s.owner && t.totalSupply == s.totalSupply
    ensures s.init ==> t.init
    ensures s.events <= t.events
    decreases |calls|
  {
    if |calls| == 0 then s else Run(Step(s, calls[0]).state, calls[1..])
  }
}

=== FILE: ledger_properties.dfy ===
/** What the runtime's ledger guarantees, and where its guarantees stop:
    conservation of the total supply for transfers between distinct
    accounts, the frame of every call, and the invariant kept by every
    sequence of calls that contains no transfer of an account to itself. */
module Erc20Properties {
  import opened Erc20
  import opened BalancesSum

  /** A second `init` fails whoever sends it, and changes nothing. */
  lemma InitOnlyOnce(s: State, first: Account, second: Account)
    requires Init(s, first).status.Ok?
    ensures Init(Init(s, first).state, second) == Fail(Init(s, first).state, AlreadyInitialized)
  {
  }

  /** Read over write of `BalanceOf`: after an `insert` under `k`, the
      getter reads the written value at `k` and the old reading elsewhere. */
  lemma BalanceReadOverWrite(s: State, k: Account, v: TokenBalance, j: Account)
    ensures BalanceOf(s.(balances := s.balances[k := v]), j) == if j == k then v else BalanceOf(s, j)
  {
  }

  /** Read over write of `AllowanceOf`, keyed by the pair of accounts. */
  lemma AllowanceReadOverWrite(s: State, k: (Account, Account), v: TokenBalance, owner: Account, spender: Account)
    ensures AllowanceOf(s.(allowances := s.allowances[k := v]), owner, spender)
            == if (owner, spender) == k then v else AllowanceOf(s, owner, spender)
  {
  }

  /** `checked_sub` undoes `checked_add` and the other way round: adding `b`
      to `a` gives `c` exactly when taking `b` from `c` gives `a`. */
  lemma CheckedSubUndoesCheckedAdd(a: TokenBalance, b: TokenBalance, c: TokenBalance)
    ensures CheckedAdd(a, b) == Some(c) <==> CheckedSub(c, b) == Some(a)
  {
  }

  /** The message returned identifies the `Error`, except that the two
      checked operations on allowances cannot be told apart, nor the two on
      balances. (`NoBalanceRecord` is itself shared by the two `exists`
      checks on a balance record.) */
  lemma MessageIdentifiesCheck(e1: Error, e2: Error)
    ensures e1.Message() == e2.Message() <==>
              || e1 == e2
              || {e1, e2} == {AllowanceOverflow, AllowanceUnderflow}
              || {e1, e2} == {BalanceUnderflow, BalanceOverflow}
  {
  }

  /** A transfer between two distinct accounts moves value without creating
      or destroying any. */
  lemma TransferConserves(s: State, from: Account, to: Account, value: TokenBalance)
    requires from != to
    ensures Sum(InnerTransfer(s, from, to, value).state.balances) == Sum(s.balances)
  {
    var o := InnerTransfer(s, from, to, value);
    if o.status.Ok? {
      var b := s.balances[from];
      var t := ValueOr0(s.balances, to);
      var m1 := s.balances[from := b - value];
      SumUpdate(s.balances, from, b - value);
      SumUpdate(m1, to, t + value);
      assert o.state.balances == m1[to := t + value];
    }
  }

  /** A transfer of an account to itself adds `value` to that account and to
      the sum of all balances: the receiver's balance is read before the
      sender's write and written after it. */
  lemma SelfTransferMints(s: State, a: Account, value: TokenBalance)
    ensures var o := InnerTransfer(s, a, a, value);
            && (o.status.Ok? <==> a in s.balances && value <= s.balances[a] && s.balances[a] + value <= MAX)
            && (o.status.Ok? ==> Sum(o.state.balances) == Sum(s.balances) + value)
  {
    var o := InnerTransfer(s, a, a, value);
    if o.status.Ok? {
      assert o.state.balances == s.balances[a := s.balances[a] + value];
      SumUpdate(s.balances, a, s.balances[a] + value);
    }
  }

  /** While the balances sum to at most `MAX`, the receiver's checked addition
      in a transfer between distinct accounts cannot overflow. */
  lemma NoOverflowWithinSupply(s: State, from: Account, to: Account, value: TokenBalance)
    requires from != to
    requires Sum(s.balances) <= MAX
    ensures InnerTransfer(s, from, to, value).status != Err(BalanceOverflow)
  {
    SumBoundsPair(s.balances, from, to);
  }

  /** `approve` accumulates: approving `x` and then `y` leaves `x + y` on top
      of what was there, and the two events carry `x` and `y`. */
  lemma ApproveAccumulates(s: State, sender: Account, spender: Account, x: TokenBalance, y: TokenBalance)
    requires sender in s.balances
    requires AllowanceOf(s, sender, spender) + x + y <= MAX
    ensures var o1 := Approve(s, sender, spender, x);
            var o2 := Approve(o1.state, sender, spender, y);
            && o1.status.Ok? && o2.status.Ok?
            && AllowanceOf(o2.state, sender, spender) == AllowanceOf(s, sender, spender) + x + y
            && o2.state.balances == s.balances
            && o2.state.events == s.events + [ApprovalEvent(sender, spender, x), ApprovalEvent(sender, spender, y)]
  {
  }

  /** A record holding zero and no record read the same through the getters,
      yet only the former lets its account approve. */
  lemma ZeroRecordIsNotAbsence(s: State, a: Account, spender: Account, value: TokenBalance)
    requires a !in s.balances
    requires AllowanceOf(s, a, spender) + value <= MAX
    ensures var s0 := s.(balances := s.balances[a := 0]);
            && (forall who :: BalanceOf(s0, who) == BalanceOf(s, who))
            && Approve(s, a, spender, value) == Fail(s, NoBalanceRecord)
            && Approve(s0, a, spender, value).status.Ok?
  {
  }

  /** Once its allowance check has passed, `transfer_from` has spent the
      allowance even when `_transfer` then fails, so a failed call is not
      free of effects. */
  lemma TransferFromWritesBeforeChecking(s: State, from: Account, to: Account, value: TokenBalance)
    requires (from, to) in s.allowances && value <= s.allowances[(from, to)]
    requires from !in s.balances || s.balances[from] < value
    ensures var o := TransferFrom(s, from, to, value);
            && o.status.Err?
            && o.state.balances == s.balances
            && o.state.allowances == s.allowances[(from, to) := s.allowances[(from, to)] - value]
            && o.state.events == s.events + [ApprovalEvent(from, to, value)]
  {
  }

  /** The origin of `transfer_from` takes no part in what it does. */
  lemma TransferFromIgnoresOrigin(s: State, o1: Account, o2: Account, from: Account, to: Account, value: TokenBalance)
    ensures Step(s, TransferFromCall(o1, from, to, value)) == Step(s, TransferFromCall(o2, from, to, value))
    ensures Step(s, TransferFromCall(o1, from, to, value)) == TransferFrom(s, from, to, value)
  {
  }

  /** The invariant of reachable storage: before `init` nobody holds a
      balance or an allowance record; afterwards the balances add up to the
      total supply. */
  ghost predicate Valid(s: State) {
    && (!s.init ==> s.balances == map[] && s.allowances == map[])
    && (s.init ==> Sum(s.balances) == s.totalSupply)
  }

  /** A call that moves value from an account to itself. */
  predicate IsSelfTransfer(c: Call) {
    match c
    case TransferCall(sender, to, _) => sender == to
    case TransferFromCall(_, from, to, _) => from == to
    case _ => false
  }

  lemma GenesisValid(owner: Account, totalSupply: TokenBalance)
    ensures Valid(Genesis(owner, totalSupply))
  {
  }

  /** The configuration never changes, `Init` only ever goes from false to
      true and only by the owner's `init`, and events are only appended. */
  lemma StepFrame(s: State, c: Call)
    ensures var t := Step(s, c).state;
            && t.owner == s.owner
            && t.totalSupply == s.totalSupply
            && (s.init ==> t.init)
            && (!s.init && t.init ==> c == InitCall(s.owner))
            && s.events <= t.events
  {
  }

  /** Every call other than a self-transfer keeps the invariant, whether it
      succeeds or fails. */
  lemma StepPreservesValid(s: State, c: Call)
    requires Valid(s)
    requires !IsSelfTransfer(c)
    ensures Valid(Step(s, c).state)
  {
    var o := Step(s, c);
    match c
    case InitCall(sender) =>
      if o.status.Ok? {
        assert o.state.balances == map[][s.owner := s.totalSupply];
        SumUpdate(map[], s.owner, s.totalSupply);
      }
    case TransferCall(sender, to, value) =>
      TransferConserves(s, sender, to, value);
    case ApproveCall(sender, spender, value) =>
    case TransferFromCall(_, from, to, value) =>
      TransferConserves(s, from, to, value);
  }

  /** The invariant holds after any sequence of calls from genesis that
      contains no self-transfer. */
  lemma {:induction false} RunPreservesValid(s: State, calls: seq<Call>)
    requires Valid(s)
    requires forall i :: 0 <= i < |calls| ==> !IsSelfTransfer(calls[i])
    ensures Valid(Run(s, calls))
    decreases |calls|
  {
    if |calls| > 0 {
      StepPreservesValid(s, calls[0]);
      RunPreservesValid(Step(s, calls[0]).state, calls[1..]);
    }
  }

  /** Storage reachable without self-transfers never overflows a receiver:
      the checked addition of `_transfer` between distinct accounts is dead. */
  lemma ReachableTransfersNeverOverflow(owner: Account, totalSupply: TokenBalance, calls: seq<Call>,
                                        from: Account, to: Account, value: TokenBalance)
    requires forall i :: 0 <= i < |calls| ==> !IsSelfTransfer(calls[i])
    requires from != to
    ensures InnerTransfer(Run(Genesis(owner, totalSupply), calls), from, to, value).status != Err(BalanceOverflow)
  {
    var s := Run(Genesis(owner, totalSupply), calls);
    RunPreservesValid(Genesis(owner, totalSupply), calls);
    if !s.init {
      assert s.balances == map[];
    } else {
      NoOverflowWithinSupply(s, from, to, value);
    }
  }

  /** A ledger with supply 1000 owned by account 1: after `init`, a transfer
      of 300 to account 2 and an approval by 2 of 100 for spender 3, a
      `transfer_from(2, 4, 60)` fails for want of an allowance keyed (2, 4),
      although 3 was the spender approved. */
  lemma AllowanceKeyedByReceiver()
    ensures var s0 := Genesis(1, 1000);
            var s1 := Init(s0, 1);
            var s2 := Transfer(s1.state, 1, 2, 300);
            var s3 := Approve(s2.state, 2, 3, 100);
            var s4 := TransferFrom(s3.state, 2, 4, 60);
            && s1.status.Ok? && BalanceOf(s1.state, 1) == 1000
            && s2.status.Ok? && BalanceOf(s2.state, 1) == 700 && BalanceOf(s2.state, 2) == 300
            && s2.state.events == [TransferEvent(1, 2, 300)]
            && s3.status.Ok? && AllowanceOf(s3.state, 2, 3) == 100
            && s4 == Fail(s3.state, NoAllowanceRecord)
  {
  }

  /** Account 1, owning the whole supply of 100, transfers 100 to itself and
      ends up holding 200: the balances no longer add up to the supply. */
  lemma SelfTransferBreaksConservation()
    ensures var s := Run(Genesis(1, 100), [InitCall(1), TransferCall(1, 1, 100)]);
            && s.balances == map[1 := 200]
            && !Valid(s)
  {
  }

  /** Account 1, holding 100, approves 500 for the pair (1, 2); a
      `transfer_from(1, 2, 200)` then fails for want of balance, yet the
      allowance has dropped to 300 and the `Approval` event is deposited. */
  lemma FailedTransferFromSpendsAllowance()
    ensures var s := Run(Genesis(1, 100), [InitCall(1), ApproveCall(1, 2, 500)]);
            var o := TransferFrom(s, 1, 2, 200);
            && AllowanceOf(s, 1, 2) == 500
            && o.status == Err(InsufficientBalance)
            && AllowanceOf(o.state, 1, 2) == 300
            && BalanceOf(o.state, 1) == 100
            && o.state.events == s.events + [ApprovalEvent(1, 2, 200)]
  {
  }
}
